=== FILE: README.md ===
# Storefront session model

A Dafny model of the storefront logic in the `Products` component of a beverage
brand's website: a three-product carousel, a quantity selector, a cart, a
delivery-address form with a mocked pincode lookup, and a simulated payment.
The component's state is modelled as one immutable `Session` value. Each button,
input or timer becomes a pure transition function, and lemmas state the
invariants every reachable session keeps.

Modules, in dependency order:

- `Options`: the `Option` type.
- `Catalog`: the fixed product list and the wrap-around carousel index.
- `Selector`: the quantity selector, which stays at one or more.
- `Cart`: cart lines, `addToCart` (merge or append), `removeFromCart` (filter), and the total.
- `Delivery`: the address record, the single-field change handler, the five-entry pincode table and `checkPincode`.
- `Storefront`: the session, the events, the event guards taken from the markup, the transitions and the session invariant.
- `Scenarios`: worked examples on concrete inputs.

Which events are possible (`Storefront.Enabled`):

- The cart, address and payment panels are full-screen overlays at the same depth.
- A later panel is painted over an earlier one, so a click reaches only the topmost open panel, or the page when no panel is open.
- "Proceed to Checkout" is rendered only for a non-empty cart.
- "Check" is disabled while a check runs and while the pincode is not six characters long.
- "Continue to Payment" is disabled until city and state are filled in and while a check runs. The browser also blocks the submit while a required input is empty.
- Both waits are taken as single atomic steps:
  - the one-second pincode lookup;
  - the 1.5 s payment processing.
- While the 3 s payment confirmation is on screen, only its timer can fire.

Session invariant (`Storefront.Inv`):

- The carousel index is in range.
- The selected quantity is at least one.
- The cart has at most one line per product id, with catalog products and positive quantities.
- City and state are either blank or a region from the pincode table.
- The address and payment panels are open only over an open, non-empty cart.
- The payment panel is open only for an address whose city and state are the ones the table gives for its pincode. This relies on the lookup wait being one atomic step; see `Storefront.PaymentNeedsOrder` under "## Left out".
- The confirmation is shown only on the payment panel.

Notes on the code:

- `checkPincode` tests only that the pincode is six characters long. It does not test that they are digits.
- Finishing a payment does not close the cart panel and does not clear the pincode error.
- The panels are independent flags, not one linear state.

## Model

| member | source | states |
|---|---|---|
| Catalog.CatalogWellFormed | index/src/components/sections/Products.tsx:54-76 | catalog ids identify products and every price is positive |
| Catalog.Next | index/src/components/sections/Products.tsx:78-80 | "next" stays in range, moves one place on, and wraps from the last product to the first |
| Catalog.Prev | index/src/components/sections/Products.tsx:82-84 | "previous" stays in range, moves one place back, and wraps from the first product to the last |
| Catalog.PrevUndoesNext | index/src/components/sections/Products.tsx:78-84 | "previous" undoes "next" |
| Catalog.NextUndoesPrev | index/src/components/sections/Products.tsx:78-84 | "next" undoes "previous" |
| Catalog.Advance | index/src/components/sections/Products.tsx:78-80 | any number of "next" presses keeps the index in range |
| Catalog.AdvanceMovesRound | index/src/components/sections/Products.tsx:78-80 | n presses of "next" move n places modulo the catalog size |
| Catalog.FullTurn | index/src/components/sections/Products.tsx:78-80 | as many presses as there are products return to the starting product |
| Selector.Increment | index/src/components/sections/Products.tsx:86-88 | plus raises the quantity and keeps it at one or more |
| Selector.Decrement | index/src/components/sections/Products.tsx:90-94 | minus keeps the quantity at one or more; it lowers it above one and leaves it alone otherwise |
| Selector.RaisedCounts | index/src/components/sections/Products.tsx:86-88 | n presses of plus add exactly n |
| Selector.LoweredCounts | index/src/components/sections/Products.tsx:90-94 | n presses of minus take off exactly one per press until the quantity reaches one, and then leave it at one |
| Selector.DecrementUndoesIncrement | index/src/components/sections/Products.tsx:86-94 | minus after plus returns to the starting quantity |
| Selector.IncrementUndoesDecrement | index/src/components/sections/Products.tsx:86-94 | plus after minus returns to the start exactly when the quantity was above one |
| Cart.Find | index/src/components/sections/Products.tsx:98 | finds the first line carrying the id, or reports that no line carries it |
| Cart.BumpAll | index/src/components/sections/Products.tsx:101-105 | the merge keeps length and order and adds the quantity to exactly the lines with the id |
| Cart.AddToCart | index/src/components/sections/Products.tsx:96-108 | a product already present is merged into its line(s) with length and order kept; a new product is appended as the last line |
| Cart.AddToCartKeepsUnique | index/src/components/sections/Products.tsx:96-108 | adding keeps at most one line per product id |
| Cart.AddToCartMerges | index/src/components/sections/Products.tsx:100-105 | with one line per id, merging changes only that line's quantity, by exactly the amount added |
| Cart.AddToCartKeepsWellFormed | index/src/components/sections/Products.tsx:96-108 | adding a catalog product with a quantity of one or more keeps the cart invariant |
| Cart.AddToCartTotal | index/src/components/sections/Products.tsx:96-120 | adding q units of a product raises the total by exactly its price times q |
| Cart.AddToCartQuantity | index/src/components/sections/Products.tsx:96-108 | adding q units of p adds q to p's quantity and leaves every other product's quantity alone |
| Cart.RemoveFromCart | index/src/components/sections/Products.tsx:114-116 | the result has no line with the id and keeps every other line; an absent id leaves the cart unchanged |
| Cart.RemoveConcat | index/src/components/sections/Products.tsx:114-116 | removal distributes over concatenation, so the remaining lines keep their relative order |
| Cart.RemoveCutsLine | index/src/components/sections/Products.tsx:114-116 | with one line per id, removal cuts out exactly that line and keeps the lines before and after it |
| Cart.RemoveKeepsUnique | index/src/components/sections/Products.tsx:114-116 | removal keeps at most one line per product id |
| Cart.RemoveKeepsWellFormed | index/src/components/sections/Products.tsx:114-116 | removal keeps the cart invariant |
| Cart.RemoveTotal | index/src/components/sections/Products.tsx:114-120 | removing a present line lowers the total by exactly that line's price times quantity |
| Cart.RemoveAfterAdd | index/src/components/sections/Products.tsx:96-116 | removing a product right after adding it gives the same cart as removing it without the add |
| Cart.GetTotalPrice | index/src/components/sections/Products.tsx:118-120 | the left-to-right running total equals the sum of price times quantity over the lines, which is 0 for an empty cart |
| Cart.SumConcat | index/src/components/sections/Products.tsx:118-120 | the total of two carts laid end to end is the sum of their totals |
| Cart.SumAround | index/src/components/sections/Products.tsx:118-120 | the total splits into the lines before a line, that line's subtotal, and the lines after it |
| Cart.SumPositive | index/src/components/sections/Products.tsx:118-120 | a well-formed cart's total is never negative, and is positive once the cart has a line |
| Delivery.SetField | index/src/components/sections/Products.tsx:126-132 | the named field takes the value; every other field, and city and state, are unchanged |
| Delivery.SetFieldToItself | index/src/components/sections/Products.tsx:126-132 | writing a field's own value back changes nothing |
| Delivery.SetFieldLastWins | index/src/components/sections/Products.tsx:126-132 | two edits of one field leave the last value |
| Delivery.SetFieldsCommute | index/src/components/sections/Products.tsx:126-132 | edits of different fields commute |
| Delivery.Lookup | index/src/components/sections/Products.tsx:149-155 | every served pincode is six digits and maps to a non-empty city and state |
| Delivery.TableShape | index/src/components/sections/Products.tsx:149-155 | the table has five pincodes, each mapped to a different region |
| Delivery.CheckPincode | index/src/components/sections/Products.tsx:134-175 | a pincode that is not six long gives the format error and changes nothing else. A table hit succeeds, clears the error and sets city and state from the table, leaving other fields alone. A miss gives "not available" and a throw gives "try again", both leaving the address alone. A six-long pincode ends with the busy flag off |
| Delivery.CheckPincodeKeepsDerived | index/src/components/sections/Products.tsx:157-162 | after a check, city and state are still blank or a table region |
| Delivery.CheckPincodeIdempotent | index/src/components/sections/Products.tsx:134-175 | checking again straight after a check gives the same answer and the same form |
| Delivery.CheckPincodeDependsOnPincode | index/src/components/sections/Products.tsx:134-175 | the answer and the error depend only on the pincode |
| Storefront.AddCurrent | index/src/components/sections/Products.tsx:96-112 | adds the current product; keeps the cart invariant; raises the total by price times selected quantity and that product's quantity by the selected quantity; resets the selector to 1; opens the cart; nothing else changes |
| Storefront.RemoveLine | index/src/components/sections/Products.tsx:114-116 | the id leaves the cart, the cart invariant holds, a present line shortens the cart by one, and nothing else changes |
| Storefront.SubmitAddressForm | index/src/components/sections/Products.tsx:177-184 | moves from the address panel to the payment panel exactly when the check succeeds, and then the address is resolved for the same pincode; nothing else changes |
| Storefront.Pay | index/src/components/sections/Products.tsx:190-191 | the confirmation appears with the order and address unchanged |
| Storefront.FinishOrder | index/src/components/sections/Products.tsx:192-205 | the confirmation closes, the payment panel closes, the cart empties to a total of 0 and the address is blanked; nothing else changes |
| Storefront.Top | index/src/components/sections/Products.tsx:323-542 | clicks go to the payment panel whenever it is open, else to the address panel, else to the cart panel; they reach the page only when no panel is open |
| Storefront.Enabled | index/src/components/sections/Products.tsx:323-666 | a click needs its panel on top and its control rendered and enabled: remove only for a line in the open cart, checkout only for a non-empty cart, pincode edits at most six long, "Check" only for a six-long pincode with no check running, submit only as the submit guard allows, pay only on the open payment form. While the confirmation shows, only its timer fires |
| Storefront.GuardsOpen | index/src/components/sections/Products.tsx:323-666 | the converse of the guards: with no confirmation showing, every control of the top layer is enabled once its own condition holds — carousel, selector and add on the page; close and remove of a held line in the cart; checkout for a non-empty cart (:377); close, edits within six pincode digits, "Check" for a six-long pincode with no check running (:460), and submit when the submit guard allows (:524) on the address form; close and pay on the payment form |
| Storefront.SubmitEnabled | index/src/components/sections/Products.tsx:420-528 | "Continue to Payment" can submit exactly when no check is running, city and state are set, and every input except the optional landmark is filled |
| Storefront.Apply | index/src/components/sections/Products.tsx:78-207 | every transition keeps the carousel index in range |
| Storefront.EventsKeepToTheirPart | index/src/components/sections/Products.tsx:78-132 | carousel and selector buttons touch only their own value; cart-panel actions never touch the address form; address-panel actions never touch the cart, carousel or selector |
| Storefront.InitialInv | index/src/components/sections/Products.tsx:29-52 | the freshly mounted session satisfies the invariant |
| Storefront.StepKeepsInv | index/src/components/sections/Products.tsx:78-207 | every possible event keeps the session invariant |
| Storefront.Run | index/src/components/sections/Products.tsx:78-207 | any run of events keeps the carousel index in range |
| Storefront.RunKeepsInv | index/src/components/sections/Products.tsx:78-207 | any run of possible events keeps the session invariant |
| Storefront.ReachableInv | index/src/components/sections/Products.tsx:29-207 | every session reachable from the mounted one satisfies the invariant |
| Storefront.CheckoutNeedsItems | index/src/components/sections/Products.tsx:377-389 | "Proceed to Checkout" is offered only for a non-empty cart with a positive total |
| Storefront.CheckButtonSkipsFormatError | index/src/components/sections/Products.tsx:457-464 | the "Check" button is enabled only when its click cannot produce the format error |
| Storefront.SubmitNeedsLookedUpRegion | index/src/components/sections/Products.tsx:522-528 | "Continue to Payment" is enabled only when city and state form one of the table's regions |
| Storefront.PaymentNeedsOrder | index/src/components/sections/Products.tsx:177-184 | payment is offered only for a non-empty order with a positive total, to a served pincode with the table's city and state |
| Storefront.PaymentCompletes | index/src/components/sections/Products.tsx:186-207 | paying shows a confirmation with the order and address unchanged, and only its timer can fire. The timer then empties the cart, blanks the address and closes the payment panel, keeping the invariant |
| Scenarios.PincodeExamples | index/src/components/sections/Products.tsx:134-175 | 560001 resolves to Bengaluru, Karnataka; 999999 is not available; 12 gets the format error without touching the busy flag |
| Scenarios.RepeatedAddMerges | index/src/components/sections/Products.tsx:96-120 | adding two of the first product and then one more gives a single line of three worth 240 |
| Scenarios.EmptyCartCannotCheckOut | index/src/components/sections/Products.tsx:377-389 | checkout cannot start from an empty cart |
| Scenarios.ChennaiRun | index/src/components/sections/Products.tsx:96-191 | adding one bottle, checking out, typing an address with pincode 600001, checking, submitting and paying reaches the confirmation state |
| Scenarios.ChennaiOrder | index/src/components/sections/Products.tsx:96-207 | a purchase shipped to 600001 gets Chennai and Tamil Nadu, reaches the confirmation with a total of 80, and is then cleared |

## Left out

- Rendering, animation, scroll-reveal effects, icons, images, video and styling carry no logic.
- A product's description and image are display-only, so `Catalog.Product` keeps only id, name and price.
- Real time and asynchrony are not modelled. Each delay is one atomic step.
- The busy flag of the pincode check is never seen set between steps. It is still part of the state and of the guards.
- A panel dismissed while its timer is pending is not modelled. While the confirmation is on screen, only its timer can fire.
- The lookup throwing is modelled as the event's `fault` flag, an input from the environment. The mock itself never throws.
- The card-number, expiry, CVV and name-on-card inputs are uncontrolled, unvalidated and hold no state. Their `required` check is not modelled.
- Keyboard focus can reach controls under an open panel. This is not modelled: events follow pointer input, which only the topmost panel receives.
- Browser `maxLength` on the pincode input is modelled as a guard on pincode edits, not as truncation.
- JavaScript numbers are doubles, exact only up to 2^53. The model uses unbounded integers for prices, quantities and totals.
- JavaScript `length` counts UTF-16 code units. The model counts characters.
- Contact, footer, about, brand-values, hero, header, logo and the app shell are static markup or DOM plumbing.
- Cart.AddToCartQuantity: the per-product quantity after any number of adds is proved one add at a time, not as one lemma over a whole sequence of adds.
- Storefront.PaymentNeedsOrder: holds only because the one-second lookup is one atomic step. In the page the pincode input stays editable during the check. The lookup uses the pincode captured when the check started, but writes city and state onto the newest address. So editing 600001 to 999999 during the check that "Continue to Payment" starts opens the payment panel showing "Chennai, Tamil Nadu - 999999". This stale-pincode pairing is not modelled.

=== FILE: cart.dfy ===
/**
 * The shopping cart: an ordered sequence of lines, at most one per product
 * id, in the order the products were first added.
 */
module Cart {

  import opened Options
  import opened Catalog

  /** One cart entry: the product as it was added and how many of it. */
  datatype Line = Line(product: Product, quantity: int)

  /** price × quantity of one line. */
  function Subtotal(l: Line): int {
    l.product.price * l.quantity
  }

  /** The mathematical total: Σ price × quantity over the lines. */
  function Sum(cart: seq<Line>): int {
    if |cart| == 0 then 0 else Subtotal(cart[0]) + Sum(cart[1..])
  }

  predicate Holds(cart: seq<Line>, id: int) {
    exists k :: 0 <= k < |cart| && cart[k].product.id == id
  }

  predicate UniqueIds(cart: seq<Line>) {
    forall j, k :: 0 <= j < k < |cart| ==> cart[j].product.id != cart[k].product.id
  }

  /** The cart invariant: one line per id, catalog products, positive quantities. */
  predicate WellFormed(cart: seq<Line>) {
    && UniqueIds(cart)
    && forall k :: 0 <= k < |cart| ==> InCatalog(cart[k].product) && cart[k].quantity >= 1
  }

  /** The position of the first line for product `id`, if any. */
  function Find(cart: seq<Line>, id: int): (r: Option<nat>)
    ensures r.Some? ==> r.value < |cart| && cart[r.value].product.id == id
    ensures r.Some? ==> forall j :: 0 <= j < r.value ==> cart[j].product.id != id
    ensures r.None? ==> forall j :: 0 <= j < |cart| ==> cart[j].product.id != id
  {
    if |cart| == 0 then None
    else if cart[0].product.id == id then Some(0)
    else match Find(cart[1..], id)
      case None => None
      case Some(k) => Some(k + 1)
  }

  /** How many units of product `id` the cart holds. */
  function QuantityOf(cart: seq<Line>, id: int): int {
    match Find(cart, id)
    case Some(k) => cart[k].quantity
    case None => 0
  }

  function Bump(l: Line, id: int, q: int): Line {
    if l.product.id == id then l.(quantity := l.quantity + q) else l
  }

  /** Adds q to the quantity of every line for product `id`, keeping the order. */
  function BumpAll(cart: seq<Line>, id: int, q: int): (r: seq<Line>)
    ensures |r| == |cart|
    ensures forall k :: 0 <= k < |cart| ==> r[k] == Bump(cart[k], id, q)
  {
    if |cart| == 0 then [] else [Bump(cart[0], id, q)] + BumpAll(cart[1..], id, q)
  }

  /**
   * Adds q units of product p: merged into the existing line for p's id when
   * there is one, otherwise appended as a new last line.
   */
  function AddToCart(cart: seq<Line>, p: Product, q: int): (r: seq<Line>)
    ensures Holds(cart, p.id) ==> |r| == |cart|
    ensures Holds(cart, p.id) ==> forall k :: 0 <= k < |cart| ==> r[k] == Bump(cart[k], p.id, q)
    ensures !Holds(cart, p.id) ==> r == cart + [Line(p, q)]
  {
    match Find(cart, p.id)
    case Some(_) => BumpAll(cart, p.id, q)
    case None => cart + [Line(p, q)]
  }

  /** Drops every line for product `id`, keeping the others in order. */
  function RemoveFromCart(cart: seq<Line>, id: int): (r: seq<Line>)
    ensures |r| <= |cart|
    ensures forall l :: l in r ==> l in cart && l.product.id != id
    ensures forall k :: 0 <= k < |cart| && cart[k].product.id != id ==> cart[k] in r
    ensures !Holds(cart, id) ==> r == cart
  {
    if |cart| == 0 then []
    else (if cart[0].product.id == id then [] else [cart[0]]) + RemoveFromCart(cart[1..], id)
  }

  /** The displayed total, computed as a left-to-right running sum. */
  method GetTotalPrice(cart: seq<Line>) returns (total: int)
    ensures total == Sum(cart)
  {
    total := 0;
    var i := 0;
    while i < |cart|
      invariant 0 <= i <= |cart|
      invariant total == Sum(cart[..i])
    {
      SumConcat(cart[..i], [cart[i]]);
      assert cart[..i + 1] == cart[..i] + [cart[i]];
      total := total + Subtotal(cart[i]);
      i := i + 1;
    }
    assert cart[..i] == cart;
  }

  // ---------------------------------------------------------------- totals

  lemma {:induction false} SumConcat(a: seq<Line>, b: seq<Line>)
    ensures Sum(a + b) == Sum(a) + Sum(b)
  {
    if |a| == 0 {
      assert a + b == b;
    } else {
      assert (a + b)[1..] == a[1..] + b;
      SumConcat(a[1..], b);
    }
  }

  /** The total splits around any one line. */
  lemma SumAround(cart: seq<Line>, k: int)
    requires 0 <= k < |cart|
    ensures Sum(cart) == Sum(cart[..k]) + Subtotal(cart[k]) + Sum(cart[k + 1..])
  {
    assert cart == cart[..k] + ([cart[k]] + cart[k + 1..]);
    SumConcat(cart[..k], [cart[k]] + cart[k + 1..]);
    SumConcat([cart[k]], cart[k + 1..]);
  }

  /** A well-formed cart's total is never negative, and positive once it has a line. */
  lemma {:induction false} SumPositive(cart: seq<Line>)
    requires WellFormed(cart)
    ensures Sum(cart) >= 0
    ensures |cart| > 0 ==> Sum(cart) > 0
  {
    if |cart| > 0 {
      CatalogWellFormed();
      var l := cart[0];
      assert l.product.price > 0 && l.quantity >= 1;
      assert Subtotal(l) >= l.quantity;
      assert WellFormed(cart[1..]);
      SumPositive(cart[1..]);
    }
  }

  // ------------------------------------------------------------- addToCart

  lemma AddToCartKeepsUnique(cart: seq<Line>, p: Product, q: int)
    requires UniqueIds(cart)
    ensures UniqueIds(AddToCart(cart, p, q))
  {
    var r := AddToCart(cart, p, q);
    if Holds(cart, p.id) {
      forall j, k | 0 <= j < k < |r|
        ensures r[j].product.id != r[k].product.id
      {
        assert r[j].product == cart[j].product && r[k].product == cart[k].product;
      }
    }
  }

  /** With one line per id, merging changes exactly that line's quantity. */
  lemma AddToCartMerges(cart: seq<Line>, p: Product, q: int, k: int)
    requires UniqueIds(cart)
    requires 0 <= k < |cart| && cart[k].product.id == p.id
    ensures |AddToCart(cart, p, q)| == |cart|
    ensures AddToCart(cart, p, q)[k] == cart[k].(quantity := cart[k].quantity + q)
    ensures forall j :: 0 <= j < |cart| && j != k ==> AddToCart(cart, p, q)[j] == cart[j]
  {
  }

  lemma AddToCartKeepsWellFormed(cart: seq<Line>, p: Product, q: int)
    requires WellFormed(cart) && InCatalog(p) && q >= 1
    ensures WellFormed(AddToCart(cart, p, q))
  {
    AddToCartKeepsUnique(cart, p, q);
  }

  /** Adding q units of p raises the total by exactly p's price times q. */
  lemma {:induction false} AddToCartTotal(cart: seq<Line>, p: Product, q: int)
    requires UniqueIds(cart)
    requires forall k :: 0 <= k < |cart| && cart[k].product.id == p.id ==> cart[k].product.price == p.price
    ensures Sum(AddToCart(cart, p, q)) == Sum(cart) + p.price * q
  {
    var r := AddToCart(cart, p, q);
    if Holds(cart, p.id) {
      var k :| 0 <= k < |cart| && cart[k].product.id == p.id;
      AddToCartMerges(cart, p, q, k);
      assert r[..k] == cart[..k];
      assert r[k + 1..] == cart[k + 1..];
      SumAround(cart, k);
      SumAround(r, k);
      MoreUnits(cart[k], q);
    } else {
      SumConcat(cart, [Line(p, q)]);
      assert Sum([Line(p, q)]) == p.price * q;
    }
  }

  lemma MoreUnits(l: Line, q: int)
    ensures Subtotal(l.(quantity := l.quantity + q)) == Subtotal(l) + l.product.price * q
  {
  }

  /** Per product, adding q units of p adds q to p's quantity and nothing to the others. */
  lemma AddToCartQuantity(cart: seq<Line>, p: Product, q: int, id: int)
    requires UniqueIds(cart)
    ensures QuantityOf(AddToCart(cart, p, q), id) == QuantityOf(cart, id) + (if id == p.id then q else 0)
  {
    var r := AddToCart(cart, p, q);
    AddToCartKeepsUnique(cart, p, q);
    if Holds(cart, p.id) {
      var k :| 0 <= k < |cart| && cart[k].product.id == p.id;
      AddToCartMerges(cart, p, q, k);
      match Find(cart, id)
      case Some(j) =>
        assert Find(r, id) == Some(j) by {
          FindUnique(r, id, j);
        }
      case None =>
        assert forall j :: 0 <= j < |r| ==> r[j].product.id == cart[j].product.id;
    } else {
      match Find(cart, id)
      case Some(j) =>
        assert Find(r, id) == Some(j) by {
          FindUnique(r, id, j);
        }
      case None =>
        if id == p.id {
          FindUnique(r, id, |cart|);
        }
    }
  }

  /** With one line per id, a line carrying `id` is the one Find returns. */
  lemma FindUnique(cart: seq<Line>, id: int, k: int)
    requires UniqueIds(cart)
    requires 0 <= k < |cart| && cart[k].product.id == id
    ensures Find(cart, id) == Some(k)
  {
  }

  // -------------------------------------------------------- removeFromCart

  /** Removing distributes over concatenation, so it keeps the relative order. */
  lemma {:induction false} RemoveConcat(a: seq<Line>, b: seq<Line>, id: int)
    ensures RemoveFromCart(a + b, id) == RemoveFromCart(a, id) + RemoveFromCart(b, id)
  {
    if |a| == 0 {
      assert a + b == b;
    } else {
      assert (a + b)[1..] == a[1..] + b;
      RemoveConcat(a[1..], b, id);
    }
  }

  /** With one line per id, removing `id` cuts out exactly its line. */
  lemma {:induction false} RemoveCutsLine(cart: seq<Line>, id: int, k: int)
    requires UniqueIds(cart)
    requires 0 <= k < |cart| && cart[k].product.id == id
    ensures RemoveFromCart(cart, id) == cart[..k] + cart[k + 1..]
  {
    var before, rest := cart[..k], cart[k..];
    assert cart == before + rest;
    OnlyLineWithId(cart, id, k);
    RemoveConcat(before, rest, id);
    assert rest == [cart[k]] + cart[k + 1..];
    DropFirstLine(rest, id);
  }

  lemma DropFirstLine(cart: seq<Line>, id: int)
    requires |cart| > 0 && cart[0].product.id == id && !Holds(cart[1..], id)
    ensures RemoveFromCart(cart, id) == cart[1..]
  {
  }

  lemma OnlyLineWithId(cart: seq<Line>, id: int, k: int)
    requires UniqueIds(cart)
    requires 0 <= k < |cart| && cart[k].product.id == id
    ensures !Holds(cart[..k], id) && !Holds(cart[k + 1..], id)
  {
    var after := cart[k + 1..];
    forall j | 0 <= j < |after|
      ensures after[j].product.id != id
    {
      assert after[j] == cart[k + 1 + j];
    }
  }

  lemma {:induction false} RemoveKeepsUnique(cart: seq<Line>, id: int)
    requires UniqueIds(cart)
    ensures UniqueIds(RemoveFromCart(cart, id))
  {
    if |cart| > 0 {
      var rest := RemoveFromCart(cart[1..], id);
      RemoveKeepsUnique(cart[1..], id);
      if cart[0].product.id != id {
        var r := [cart[0]] + rest;
        forall j, k | 0 <= j < k < |r|
          ensures r[j].product.id != r[k].product.id
        {
          if j == 0 {
            assert r[k] == rest[k - 1];
            assert rest[k - 1] in cart[1..];
          } else {
            assert r[j] == rest[j - 1] && r[k] == rest[k - 1];
          }
        }
      }
    }
  }

  lemma RemoveKeepsWellFormed(cart: seq<Line>, id: int)
    requires WellFormed(cart)
    ensures WellFormed(RemoveFromCart(cart, id))
  {
    RemoveKeepsUnique(cart, id);
    var r := RemoveFromCart(cart, id);
    forall k | 0 <= k < |r|
      ensures InCatalog(r[k].product) && r[k].quantity >= 1
    {
      assert r[k] in cart;
    }
  }

  /** Removing a present line lowers the total by exactly that line's subtotal. */
  lemma RemoveTotal(cart: seq<Line>, id: int, k: int)
    requires UniqueIds(cart)
    requires 0 <= k < |cart| && cart[k].product.id == id
    ensures Sum(RemoveFromCart(cart, id)) == Sum(cart) - Subtotal(cart[k])
  {
    RemoveCutsLine(cart, id, k);
    SumAround(cart, k);
    SumConcat(cart[..k], cart[k + 1..]);
  }

  lemma {:induction false} RemoveUndoesBump(cart: seq<Line>, id: int, q: int)
    ensures RemoveFromCart(BumpAll(cart, id, q), id) == RemoveFromCart(cart, id)
  {
    if |cart| > 0 {
      assert BumpAll(cart, id, q)[1..] == BumpAll(cart[1..], id, q);
      RemoveUndoesBump(cart[1..], id, q);
    }
  }

  /** Removing a product right after adding it leaves what removing it alone leaves. */
  lemma RemoveAfterAdd(cart: seq<Line>, p: Product, q: int)
    ensures RemoveFromCart(AddToCart(cart, p, q), p.id) == RemoveFromCart(cart, p.id)
  {
    if Holds(cart, p.id) {
      assert AddToCart(cart, p, q) == BumpAll(cart, p.id, q);
      RemoveUndoesBump(cart, p.id, q);
    } else {
      RemoveConcat(cart, [Line(p, q)], p.id);
      assert RemoveFromCart([Line(p, q)], p.id) == [];
    }
  }
}

=== FILE: catalog.dfy ===
/**
 * The fixed product catalog of the storefront and the carousel that walks it.
 * The carousel position is an index into the catalog that wraps around at
 * both ends.
 */
module Catalog {

  /** A product on sale. The description and image are display-only and left out. */
  datatype Product = Product(id: int, name: string, price: int)

  /** The three products, in carousel order. */
  const Products: seq<Product> := [
    Product(1, "Classic Nannari", 80),
    Product(2, "Ginger Zest", 150),
    Product(3, "Mint Refresh", 200)
  ]

  predicate ValidIndex(i: int) {
    0 <= i < |Products|
  }

  predicate InCatalog(p: Product) {
    p in Products
  }

  /** The catalog promises one product per id, each with a positive price. */
  lemma CatalogWellFormed()
    ensures forall p, q :: InCatalog(p) && InCatalog(q) && p.id == q.id ==> p == q
    ensures forall p :: InCatalog(p) ==> p.price > 0
  {
  }

  /** The carousel's "next" button: the following product, wrapping to the first. */
  function Next(i: int): (j: int)
    requires ValidIndex(i)
    ensures ValidIndex(j)
    ensures i < |Products| - 1 ==> j == i + 1
    ensures i == |Products| - 1 ==> j == 0
  {
    (i + 1) % |Products|
  }

  /** The carousel's "previous" button: the preceding product, wrapping to the last. */
  function Prev(i: int): (j: int)
    requires ValidIndex(i)
    ensures ValidIndex(j)
    ensures 0 < i ==> j == i - 1
    ensures i == 0 ==> j == |Products| - 1
  {
    (i - 1 + |Products|) % |Products|
  }

  lemma PrevUndoesNext(i: int)
    requires ValidIndex(i)
    ensures Prev(Next(i)) == i
  {
  }

  lemma NextUndoesPrev(i: int)
    requires ValidIndex(i)
    ensures Next(Prev(i)) == i
  {
  }

  /** The index reached by pressing "next" n times. */
  function Advance(i: int, n: nat): (j: int)
    requires ValidIndex(i)
    ensures ValidIndex(j)
    decreases n
  {
    if n == 0 then i else Next(Advance(i, n - 1))
  }

  /** Pressing "next" n times moves n places round the catalog. */
  lemma {:induction false} AdvanceMovesRound(i: int, n: nat)
    requires ValidIndex(i)
    ensures Advance(i, n) == (i + n) % |Products|
  {
    if n > 0 {
      AdvanceMovesRound(i, n - 1);
    }
  }

  /** A full turn of the carousel comes back to the product it started on. */
  lemma FullTurn(i: int)
    requires ValidIndex(i)
    ensures Advance(i, |Products|) == i
  {
    AdvanceMovesRound(i, |Products|);
  }
}

=== FILE: delivery.dfy ===
/**
 * The delivery address form and the mocked pincode lookup. City and state are
 * never typed in: they are filled in from a fixed five-entry pincode table.
 */
module Delivery {

  import opened Options

  /** The form's fields; `street` is the form's "address" textarea. */
  datatype Address = Address(
    name: string,
    phone: string,
    pincode: string,
    street: string,
    city: string,
    state: string,
    landmark: string)

  const Blank: Address := Address("", "", "", "", "", "", "")

  /** The inputs wired to the change handler; city and state are read-only. */
  datatype Field = Name | Phone | Pincode | Street | Landmark

  function Get(a: Address, f: Field): string {
    match f
    case Name => a.name
    case Phone => a.phone
    case Pincode => a.pincode
    case Street => a.street
    case Landmark => a.landmark
  }

  /** The change handler: one field takes the new value, every other stays. */
  function SetField(a: Address, f: Field, v: string): (r: Address)
    ensures Get(r, f) == v
    ensures forall g :: g != f ==> Get(r, g) == Get(a, g)
    ensures r.city == a.city && r.state == a.state
  {
    match f
    case Name => a.(name := v)
    case Phone => a.(phone := v)
    case Pincode => a.(pincode := v)
    case Street => a.(street := v)
    case Landmark => a.(landmark := v)
  }

  lemma SetFieldToItself(a: Address, f: Field)
    ensures SetField(a, f, Get(a, f)) == a
  {
  }

  lemma SetFieldLastWins(a: Address, f: Field, v: string, w: string)
    ensures SetField(SetField(a, f, v), f, w) == SetField(a, f, w)
  {
  }

  lemma SetFieldsCommute(a: Address, f: Field, v: string, g: Field, w: string)
    requires f != g
    ensures SetField(SetField(a, f, v), g, w) == SetField(SetField(a, g, w), f, v)
  {
  }

  datatype Region = Region(city: string, state: string)

  /** The serviceable pincodes. */
  const PincodeTable: map<string, Region> := map[
    "600001" := Region("Chennai", "Tamil Nadu"),
    "560001" := Region("Bengaluru", "Karnataka"),
    "400001" := Region("Mumbai", "Maharashtra"),
    "110001" := Region("New Delhi", "Delhi"),
    "700001" := Region("Kolkata", "West Bengal")
  ]

  predicate SixDigits(code: string) {
    |code| == 6 && forall i :: 0 <= i < |code| ==> '0' <= code[i] <= '9'
  }

  /** The mock lookup; a miss means delivery is not available. */
  function Lookup(code: string): (r: Option<Region>)
    ensures r.Some? ==> SixDigits(code)
    ensures r.Some? ==> r.value.city != "" && r.value.state != ""
  {
    if code in PincodeTable then Some(PincodeTable[code]) else None
  }

  /** Five serviceable pincodes, going to five different cities. */
  lemma TableShape()
    ensures |PincodeTable| == 5
    ensures forall c, d :: c in PincodeTable && d in PincodeTable && c != d ==> PincodeTable[c] != PincodeTable[d]
  {
    assert PincodeTable.Keys == {"600001", "560001", "400001", "110001", "700001"};
  }

  /** City and state are either unset or one of the table's regions. */
  predicate Derived(a: Address) {
    (a.city == "" && a.state == "") || Region(a.city, a.state) in PincodeTable.Values
  }

  /** City and state are the ones the table gives for the entered pincode. */
  predicate Resolved(a: Address) {
    Lookup(a.pincode) == Some(Region(a.city, a.state))
  }

  const FormatError: string := "Please enter a valid 6-digit pincode"
  const NotServiceable: string := "Delivery not available for this pincode"
  const LookupFailed: string := "Error checking pincode. Please try again."

  /** The address form's state: the address, the error shown under the pincode, the busy flag. */
  datatype Form = Form(address: Address, error: Option<string>, checking: bool)

  const EmptyForm: Form := Form(Blank, None, false)

  datatype CheckResult = CheckResult(valid: bool, form: Form)

  /**
   * checkPincode, with its one-second wait taken as one atomic step. `fault`
   * stands for the lookup throwing, which the mock never does.
   */
  function CheckPincode(f: Form, fault: bool): (r: CheckResult)
    ensures r.valid <==> |f.address.pincode| == 6 && !fault && Lookup(f.address.pincode).Some?
    ensures |f.address.pincode| != 6 ==> r.form == f.(error := Some(FormatError))
    ensures |f.address.pincode| == 6 ==> !r.form.checking
    ensures r.valid ==> r.form.error == None && Resolved(r.form.address)
    ensures r.valid ==> r.form.address.(city := f.address.city, state := f.address.state) == f.address
    ensures !r.valid ==> r.form.address == f.address
    ensures |f.address.pincode| == 6 && fault ==> r.form.error == Some(LookupFailed)
    ensures |f.address.pincode| == 6 && !fault && Lookup(f.address.pincode).None? ==>
      r.form.error == Some(NotServiceable)
  {
    var code := f.address.pincode;
    if |code| != 6 then
      CheckResult(false, f.(error := Some(FormatError)))
    else if fault then
      CheckResult(false, f.(error := Some(LookupFailed), checking := false))
    else
      match Lookup(code)
      case Some(region) =>
        CheckResult(true, Form(f.address.(city := region.city, state := region.state), None, false))
      case None =>
        CheckResult(false, f.(error := Some(NotServiceable), checking := false))
  }

  /** A check keeps city and state unset or drawn from the table. */
  lemma CheckPincodeKeepsDerived(f: Form, fault: bool)
    requires Derived(f.address)
    ensures Derived(CheckPincode(f, fault).form.address)
  {
    var r := CheckPincode(f, fault);
    if r.valid {
      var code := f.address.pincode;
      assert PincodeTable[code] in PincodeTable.Values;
    }
  }

  /** Checking again straight after a check changes nothing and gives the same answer. */
  lemma CheckPincodeIdempotent(f: Form, fault: bool)
    ensures CheckPincode(CheckPincode(f, fault).form, fault) == CheckPincode(f, fault)
  {
  }

  /** The answer depends on the pincode alone, not on the rest of the form. */
  lemma CheckPincodeDependsOnPincode(f: Form, g: Form, fault: bool)
    requires f.address.pincode == g.address.pincode
    ensures CheckPincode(f, fault).valid == CheckPincode(g, fault).valid
    ensures CheckPincode(f, fault).form.error == CheckPincode(g, fault).form.error
  {
  }
}

=== FILE: options.dfy ===
/** Optional values, used for lookups that can miss. */
module Options {

  datatype Option<+T> = None | Some(value: T)
}

=== FILE: scenarios.dfy ===
/** Worked examples of the storefront's promised behaviour, on concrete inputs. */
module Scenarios {

  import opened Options
  import opened Catalog
  import Cart
  import Delivery
  import opened Storefront

  function WithPincode(code: string): Delivery.Form {
    Delivery.EmptyForm.(address := Delivery.Blank.(pincode := code))
  }

  /** A served pincode, an unserved one, and a malformed one. */
  lemma PincodeExamples()
    ensures Delivery.CheckPincode(WithPincode("560001"), false).valid
    ensures Delivery.CheckPincode(WithPincode("560001"), false).form.address.city == "Bengaluru"
    ensures Delivery.CheckPincode(WithPincode("560001"), false).form.address.state == "Karnataka"
    ensures Delivery.CheckPincode(WithPincode("999999"), false)
      == Delivery.CheckResult(false, WithPincode("999999").(error := Some(Delivery.NotServiceable)))
    ensures Delivery.CheckPincode(WithPincode("12"), false)
      == Delivery.CheckResult(false, WithPincode("12").(error := Some(Delivery.FormatError)))
  {
  }

  /** Two of the first product, then one more: a single line of three, worth 240. */
  lemma RepeatedAddMerges()
    ensures var r := Run(Initial, [IncrementQuantity, AddToCart, CloseCart, AddToCart]);
      && r.Some?
      && r.value.cart == [Cart.Line(Products[0], 3)]
      && Cart.Sum(r.value.cart) == 240
  {
    var s1 := Apply(Initial, IncrementQuantity);
    var s2 := Apply(s1, AddToCart);
    var s3 := Apply(s2, CloseCart);
    var s4 := Apply(s3, AddToCart);
    assert s2.cart == [Cart.Line(Products[0], 2)];
    assert s4.cart == [Cart.Line(Products[0], 3)];
  }

  /** With an empty cart there is no way to start checkout. */
  lemma EmptyCartCannotCheckOut(s: Session)
    requires s.cart == []
    ensures !Enabled(s, ProceedToCheckout)
  {
  }

  const ChennaiCheckout: seq<Event> := [
    AddToCart, ProceedToCheckout,
    EditAddress(Delivery.Name, "Asha"), EditAddress(Delivery.Phone, "9876543210"),
    EditAddress(Delivery.Pincode, "600001"), EditAddress(Delivery.Street, "1 Anna Salai"),
    CheckPincode(false), SubmitAddress(false), SubmitPayment]

  /** The address as typed in, before the lookup. */
  const Typed: Delivery.Address := Delivery.Address("Asha", "9876543210", "600001", "1 Anna Salai", "", "", "")

  const InCart: Session := Initial.(cart := [Cart.Line(Products[0], 1)], showCart := true)
  const AtAddress: Session := InCart.(showAddressForm := true)
  const Filled: Session := AtAddress.(form := Delivery.EmptyForm.(address := Typed))
  const Looked: Session := Filled.(form := Delivery.EmptyForm.(address := Typed.(city := "Chennai", state := "Tamil Nadu")))
  const AtPayment: Session := Looked.(showAddressForm := false, showPayment := true)
  const Confirmed: Session := AtPayment.(paymentSuccess := true)

  predicate Moves(s: Session, e: Event, t: Session) {
    ValidIndex(s.current) && Enabled(s, e) && Apply(s, e) == t
  }

  lemma ShoppingSteps()
    ensures Moves(Initial, AddToCart, InCart)
    ensures Moves(InCart, ProceedToCheckout, AtAddress)
  {
  }

  lemma TypingSteps()
    ensures Run(AtAddress, ChennaiCheckout[2..6]) == Some(Filled)
  {
    var e := ChennaiCheckout[2..6];
    var a1 := Apply(AtAddress, e[0]);
    var a2 := Apply(a1, e[1]);
    var a3 := Apply(a2, e[2]);
    var a4 := Apply(a3, e[3]);
    assert a4 == Filled;
    RunCons(a3, e[3], []);
    RunCons(a2, e[2], e[3..]);
    RunCons(a1, e[1], e[2..]);
    RunCons(AtAddress, e[0], e[1..]);
    assert e == [e[0]] + e[1..];
    assert e[1..] == [e[1]] + e[2..];
    assert e[2..] == [e[2]] + e[3..];
  }

  lemma CheckoutSteps()
    ensures Moves(Filled, CheckPincode(false), Looked)
    ensures Moves(Looked, SubmitAddress(false), AtPayment)
    ensures Moves(AtPayment, SubmitPayment, Confirmed)
  {
  }

  lemma {:induction false} ChennaiRun()
    ensures Run(Initial, ChennaiCheckout) == Some(Confirmed)
  {
    ShoppingSteps();
    TypingSteps();
    CheckoutSteps();
    RunCons(AtPayment, SubmitPayment, []);
    RunCons(Looked, SubmitAddress(false), [SubmitPayment]);
    RunCons(Filled, CheckPincode(false), [SubmitAddress(false), SubmitPayment]);
    assert ChennaiCheckout[6..] == [CheckPincode(false), SubmitAddress(false), SubmitPayment];
    RunCons(InCart, ProceedToCheckout, []);
    RunCons(Initial, AddToCart, [ProceedToCheckout]);
    assert ChennaiCheckout == [AddToCart, ProceedToCheckout] + (ChennaiCheckout[2..6] + ChennaiCheckout[6..]);
    RunConcat(Initial, [AddToCart, ProceedToCheckout], ChennaiCheckout[2..6] + ChennaiCheckout[6..]);
    RunConcat(AtAddress, ChennaiCheckout[2..6], ChennaiCheckout[6..]);
  }

  /**
   * The whole purchase: one bottle, an address in Chennai, payment, and the
   * session emptied once the confirmation has been shown.
   */
  lemma {:induction false} ChennaiOrder()
    ensures var r := Run(Initial, ChennaiCheckout);
      && r.Some?
      && r.value.paymentSuccess
      && r.value.form.address.city == "Chennai" && r.value.form.address.state == "Tamil Nadu"
      && Cart.Sum(r.value.cart) == 80
      && Run(r.value, [ConfirmationElapsed]) == Some(r.value.(
           paymentSuccess := false, showPayment := false, cart := [],
           form := r.value.form.(address := Delivery.Blank)))
  {
    ChennaiRun();
    assert Cart.Sum(Confirmed.cart) == 80;
    assert Enabled(Confirmed, ConfirmationElapsed);
    RunCons(Confirmed, ConfirmationElapsed, []);
  }
}

=== FILE: selector.dfy ===
/**
 * The quantity selector next to the "Add to Cart" button. It starts at one,
 * and its minus button never takes it below one.
 */
module Selector {

  const Initial: int := 1

  predicate Valid(q: int) {
    q >= 1
  }

  /** The plus button. */
  function Increment(q: int): (r: int)
    ensures Valid(q) ==> Valid(r)
    ensures r > q
  {
    q + 1
  }

  /** The minus button: it acts only when the quantity is above one. */
  function Decrement(q: int): (r: int)
    ensures Valid(q) ==> Valid(r)
    ensures Valid(q) && q != 1 ==> r < q
    ensures !(q > 1) ==> r == q
  {
    if q > 1 then q - 1 else q
  }

  lemma DecrementUndoesIncrement(q: int)
    requires Valid(q)
    ensures Decrement(Increment(q)) == q
  {
  }

  /** Plus after minus returns to the start exactly when the minus button acted. */
  lemma IncrementUndoesDecrement(q: int)
    requires Valid(q)
    ensures Increment(Decrement(q)) == q <==> q > 1
  {
  }

  /** The quantity after pressing plus n times. */
  function Raised(q: int, n: nat): int
    decreases n
  {
    if n == 0 then q else Increment(Raised(q, n - 1))
  }

  /** Each press of plus adds exactly one. */
  lemma {:induction false} RaisedCounts(q: int, n: nat)
    ensures Raised(q, n) == q + n
  {
    if n > 0 {
      RaisedCounts(q, n - 1);
    }
  }

  /** The quantity after pressing minus n times. */
  function Lowered(q: int, n: nat): int
    decreases n
  {
    if n == 0 then q else Decrement(Lowered(q, n - 1))
  }

  /** Each press of minus takes exactly one off until the quantity reaches one, where it stays. */
  lemma {:induction false} LoweredCounts(q: int, n: nat)
    requires Valid(q)
    ensures Lowered(q, n) == if q - n >= 1 then q - n else 1
  {
    if n > 0 {
      LoweredCounts(q, n - 1);
    }
  }
}

=== FILE: storefront.dfy ===
/**
 * The storefront session: carousel position, quantity selector, cart, the
 * three checkout panels and the address form, with one transition per user
 * action or timer expiry.
 *
 * The cart, address and payment panels are fixed full-screen overlays of equal
 * depth, later ones painted over earlier ones, so a click reaches only the
 * topmost open panel (or the page when none is open).
 */
module Storefront {

  import opened Options
  import opened Catalog
  import Selector
  import Cart
  import Delivery

  datatype Session = Session(
    current: int,            // carousel index
    quantity: int,           // the selector's value
    cart: seq<Cart.Line>,
    showCart: bool,
    showAddressForm: bool,
    showPayment: bool,
    paymentSuccess: bool,    // the confirmation is on screen
    form: Delivery.Form)

  const Initial: Session :=
    Session(0, Selector.Initial, [], false, false, false, false, Delivery.EmptyForm)

  datatype Layer = Page | CartPanel | AddressPanel | PaymentPanel

  /** The layer that receives clicks. */
  function Top(s: Session): (l: Layer)
    ensures l == Page <==> !s.showCart && !s.showAddressForm && !s.showPayment
    ensures l == PaymentPanel <==> s.showPayment
    ensures l == AddressPanel <==> s.showAddressForm && !s.showPayment
    ensures l == CartPanel <==> s.showCart && !s.showAddressForm && !s.showPayment
  {
    if s.showPayment then PaymentPanel
    else if s.showAddressForm then AddressPanel
    else if s.showCart then CartPanel
    else Page
  }

  datatype Event =
    | NextProduct | PrevProduct | IncrementQuantity | DecrementQuantity | AddToCart
    | CloseCart | RemoveItem(id: int) | ProceedToCheckout
    | CloseAddressForm | EditAddress(field: Delivery.Field, value: string)
    | CheckPincode(fault: bool) | SubmitAddress(fault: bool)
    | ClosePayment | SubmitPayment
    | ConfirmationElapsed

  /** Where each click lands; the confirmation timer is not a click. */
  function LayerOf(e: Event): Option<Layer> {
    match e
    case NextProduct | PrevProduct | IncrementQuantity | DecrementQuantity | AddToCart => Some(Page)
    case CloseCart | RemoveItem(_) | ProceedToCheckout => Some(CartPanel)
    case CloseAddressForm | EditAddress(_, _) | CheckPincode(_) | SubmitAddress(_) => Some(AddressPanel)
    case ClosePayment | SubmitPayment => Some(PaymentPanel)
    case ConfirmationElapsed => None
  }

  /**
   * Whether an event can happen. While the confirmation is on screen its timer
   * is pending, and the delay is taken as atomic, so only the timer can fire.
   * Otherwise a click needs its layer on top and the control rendered and enabled.
   */
  predicate Enabled(s: Session, e: Event): (b: bool)
    ensures s.paymentSuccess ==> (b <==> e == ConfirmationElapsed)
    ensures b && !s.paymentSuccess ==> LayerOf(e) == Some(Top(s))
    ensures b && e.RemoveItem? ==> s.showCart && Cart.Holds(s.cart, e.id)
    ensures b && e == ProceedToCheckout ==> s.showCart && |s.cart| > 0
    ensures b && e.EditAddress? && e.field == Delivery.Pincode ==> |e.value| <= 6
    ensures b && e.CheckPincode? ==>
      s.showAddressForm && !s.form.checking && s.form.address.pincode != "" && |s.form.address.pincode| == 6
    ensures b && e.SubmitAddress? ==> s.showAddressForm && !s.showPayment && SubmitEnabled(s.form)
    ensures b && e == SubmitPayment ==> s.showPayment && !s.paymentSuccess
  {
    if s.paymentSuccess then e == ConfirmationElapsed
    else
      LayerOf(e) == Some(Top(s)) &&
      match e
      case RemoveItem(id) => Cart.Holds(s.cart, id)
      case ProceedToCheckout => |s.cart| > 0
      case EditAddress(f, v) => f == Delivery.Pincode ==> |v| <= 6
      case CheckPincode(_) => !s.form.checking && |s.form.address.pincode| == 6
      case SubmitAddress(_) => SubmitEnabled(s.form)
      case _ => true
  }

  /**
   * The converse of the guards above: with no confirmation on screen, every
   * control on the topmost layer is enabled once its own condition holds.
   */
  lemma GuardsOpen(s: Session, e: Event)
    requires !s.paymentSuccess
    ensures Top(s) == Page && LayerOf(e) == Some(Page) ==> Enabled(s, e)
    ensures Top(s) == CartPanel && (e == CloseCart || (e.RemoveItem? && Cart.Holds(s.cart, e.id))) ==> Enabled(s, e)
    ensures Top(s) == CartPanel && |s.cart| > 0 ==> Enabled(s, ProceedToCheckout)
    ensures Top(s) == AddressPanel && e == CloseAddressForm ==> Enabled(s, e)
    ensures Top(s) == AddressPanel && e.EditAddress? && (e.field == Delivery.Pincode ==> |e.value| <= 6) ==>
      Enabled(s, e)
    ensures Top(s) == AddressPanel && !s.form.checking && |s.form.address.pincode| == 6 ==>
      forall f :: Enabled(s, CheckPincode(f))
    ensures Top(s) == AddressPanel && SubmitEnabled(s.form) ==> forall f :: Enabled(s, SubmitAddress(f))
    ensures Top(s) == PaymentPanel ==> Enabled(s, ClosePayment) && Enabled(s, SubmitPayment)
  {
  }

  /**
   * "Continue to Payment" is disabled until city and state are filled in and
   * while a check is running; the browser also refuses to submit while a
   * required input (name, phone, pincode, address) is empty.
   */
  predicate SubmitEnabled(f: Delivery.Form): (b: bool)
    ensures b <==>
      && !f.checking && f.address.city != "" && f.address.state != ""
      && forall g :: g != Delivery.Landmark ==> Delivery.Get(f.address, g) != ""
  {
    RequiredInputsFilled(f.address);
    && f.address.city != "" && f.address.state != "" && !f.checking
    && f.address.name != "" && f.address.phone != ""
    && f.address.pincode != "" && f.address.street != ""
  }

  /** The four required inputs are exactly the editable fields other than the landmark. */
  lemma RequiredInputsFilled(a: Delivery.Address)
    ensures (forall g :: g != Delivery.Landmark ==> Delivery.Get(a, g) != "") <==>
      (a.name != "" && a.phone != "" && a.pincode != "" && a.street != "")
  {
    assert Delivery.Get(a, Delivery.Name) == a.name;
    assert Delivery.Get(a, Delivery.Phone) == a.phone;
    assert Delivery.Get(a, Delivery.Pincode) == a.pincode;
    assert Delivery.Get(a, Delivery.Street) == a.street;
  }

  /** The session invariant every reachable state keeps. */
  predicate Inv(s: Session) {
    && ValidIndex(s.current)
    && Selector.Valid(s.quantity)
    && Cart.WellFormed(s.cart)
    && !s.form.checking
    && Delivery.Derived(s.form.address)
    && (s.showAddressForm || s.showPayment ==> s.showCart && |s.cart| > 0)
    && !(s.showAddressForm && s.showPayment)
    && (s.showPayment ==> Delivery.Resolved(s.form.address))
    && (s.paymentSuccess ==> s.showPayment)
  }

  /**
   * addToCart: the current product joins the cart with the selected quantity,
   * the selector resets to one and the cart opens.
   */
  function AddCurrent(s: Session): (t: Session)
    requires ValidIndex(s.current)
    ensures t.(cart := s.cart, quantity := s.quantity, showCart := s.showCart) == s
    ensures t.quantity == Selector.Initial && t.showCart
    ensures Cart.WellFormed(s.cart) && Selector.Valid(s.quantity) ==>
      && Cart.WellFormed(t.cart)
      && Cart.Sum(t.cart) == Cart.Sum(s.cart) + Products[s.current].price * s.quantity
      && Cart.QuantityOf(t.cart, Products[s.current].id)
         == Cart.QuantityOf(s.cart, Products[s.current].id) + s.quantity
  {
    AddCurrentFacts(s.cart, s.current, s.quantity);
    s.(cart := Cart.AddToCart(s.cart, Products[s.current], s.quantity),
       quantity := Selector.Initial, showCart := true)
  }

  lemma AddCurrentFacts(cart: seq<Cart.Line>, i: int, q: int)
    requires ValidIndex(i)
    ensures var p := Products[i];
      var r := Cart.AddToCart(cart, p, q);
      Cart.WellFormed(cart) && Selector.Valid(q) ==>
        && Cart.WellFormed(r)
        && Cart.Sum(r) == Cart.Sum(cart) + p.price * q
        && Cart.QuantityOf(r, p.id) == Cart.QuantityOf(cart, p.id) + q
  {
    var p := Products[i];
    if Cart.WellFormed(cart) && Selector.Valid(q) {
      CurrentProductLines(cart, i);
      Cart.AddToCartKeepsWellFormed(cart, p, q);
      Cart.AddToCartTotal(cart, p, q);
      Cart.AddToCartQuantity(cart, p, q, p.id);
    }
  }

  /** In a well-formed cart, every line for a catalog product's id carries that product. */
  lemma CurrentProductLines(cart: seq<Cart.Line>, i: int)
    requires Cart.WellFormed(cart) && ValidIndex(i)
    ensures forall k :: 0 <= k < |cart| && cart[k].product.id == Products[i].id ==>
      cart[k].product.price == Products[i].price
  {
    CatalogWellFormed();
  }

  /** removeFromCart: the line for `id` leaves the cart; nothing else changes. */
  function RemoveLine(s: Session, id: int): (t: Session)
    ensures t.(cart := s.cart) == s
    ensures !Cart.Holds(t.cart, id)
    ensures Cart.WellFormed(s.cart) ==> Cart.WellFormed(t.cart)
    ensures Cart.UniqueIds(s.cart) ==> |t.cart| == |s.cart| - (if Cart.Holds(s.cart, id) then 1 else 0)
  {
    RemoveLineFacts(s.cart, id);
    s.(cart := Cart.RemoveFromCart(s.cart, id))
  }

  lemma RemoveLineFacts(cart: seq<Cart.Line>, id: int)
    ensures Cart.WellFormed(cart) ==> Cart.WellFormed(Cart.RemoveFromCart(cart, id))
    ensures Cart.UniqueIds(cart) ==>
      |Cart.RemoveFromCart(cart, id)| == |cart| - (if Cart.Holds(cart, id) then 1 else 0)
  {
    if Cart.WellFormed(cart) {
      Cart.RemoveKeepsWellFormed(cart, id);
    }
    if Cart.UniqueIds(cart) && Cart.Holds(cart, id) {
      var k :| 0 <= k < |cart| && cart[k].product.id == id;
      Cart.RemoveCutsLine(cart, id, k);
    }
  }

  /**
   * handleAddressSubmit: the pincode is checked, and only a successful check
   * moves from the address panel to the payment panel.
   */
  function SubmitAddressForm(s: Session, fault: bool): (t: Session)
    ensures var c := Delivery.CheckPincode(s.form, fault);
      && t.form == c.form
      && t.showAddressForm == (s.showAddressForm && !c.valid)
      && t.showPayment == (s.showPayment || c.valid)
    ensures t.(form := s.form, showAddressForm := s.showAddressForm, showPayment := s.showPayment) == s
    ensures t.showPayment && !s.showPayment ==>
      Delivery.Resolved(t.form.address) && t.form.address.pincode == s.form.address.pincode
  {
    var c := Delivery.CheckPincode(s.form, fault);
    if c.valid then s.(form := c.form, showAddressForm := false, showPayment := true)
    else s.(form := c.form)
  }

  /** handlePayment, up to its first timer: the confirmation shows the order as it stands. */
  function Pay(s: Session): (t: Session)
    ensures t.paymentSuccess
    ensures t.(paymentSuccess := s.paymentSuccess) == s
  {
    s.(paymentSuccess := true)
  }

  /** handlePayment's second timer: the order is done and the session starts over. */
  function FinishOrder(s: Session): (t: Session)
    ensures !t.paymentSuccess && !t.showPayment
    ensures t.cart == [] && Cart.Sum(t.cart) == 0
    ensures t.form.address == Delivery.Blank
    ensures t.form.(address := s.form.address) == s.form
    ensures t.(paymentSuccess := s.paymentSuccess, showPayment := s.showPayment, cart := s.cart,
               form := s.form) == s
  {
    s.(paymentSuccess := false, showPayment := false, cart := [],
       form := s.form.(address := Delivery.Blank))
  }

  /** The effect of one event. */
  function Apply(s: Session, e: Event): (t: Session)
    requires ValidIndex(s.current)
    ensures ValidIndex(t.current)
  {
    match e
    case NextProduct => s.(current := Next(s.current))
    case PrevProduct => s.(current := Prev(s.current))
    case IncrementQuantity => s.(quantity := Selector.Increment(s.quantity))
    case DecrementQuantity => s.(quantity := Selector.Decrement(s.quantity))
    case AddToCart => AddCurrent(s)
    case CloseCart => s.(showCart := false)
    case RemoveItem(id) => RemoveLine(s, id)
    case ProceedToCheckout => s.(showAddressForm := true)
    case CloseAddressForm => s.(showAddressForm := false)
    case EditAddress(f, v) => s.(form := s.form.(address := Delivery.SetField(s.form.address, f, v)))
    case CheckPincode(fault) => s.(form := Delivery.CheckPincode(s.form, fault).form)
    case SubmitAddress(fault) => SubmitAddressForm(s, fault)
    case ClosePayment => s.(showPayment := false)
    case SubmitPayment => Pay(s)
    case ConfirmationElapsed => FinishOrder(s)
  }

  /**
   * Each part of the page leaves the others alone: the carousel and selector
   * touch only their own value, the cart panel never touches the address, and
   * the address panel never touches the cart, the carousel or the selector.
   */
  lemma EventsKeepToTheirPart(s: Session, e: Event)
    requires ValidIndex(s.current)
    ensures e in {NextProduct, PrevProduct} ==> Apply(s, e).(current := s.current) == s
    ensures e in {IncrementQuantity, DecrementQuantity} ==> Apply(s, e).(quantity := s.quantity) == s
    ensures LayerOf(e) == Some(CartPanel) ==> Apply(s, e).form == s.form
    ensures LayerOf(e) == Some(AddressPanel) ==>
      Apply(s, e).(form := s.form, showAddressForm := s.showAddressForm, showPayment := s.showPayment) == s
  {
  }

  lemma InitialInv()
    ensures Inv(Initial)
  {
  }

  /** Every enabled event keeps the invariant. */
  lemma {:induction false} StepKeepsInv(s: Session, e: Event)
    requires Inv(s) && Enabled(s, e)
    ensures Inv(Apply(s, e))
  {
    match e
    case CheckPincode(fault) =>
      Delivery.CheckPincodeKeepsDerived(s.form, fault);
    case SubmitAddress(fault) =>
      Delivery.CheckPincodeKeepsDerived(s.form, fault);
    case _ =>
  }

  /** Runs a sequence of events; None when one of them is not possible at its turn. */
  function Run(s: Session, events: seq<Event>): (r: Option<Session>)
    requires ValidIndex(s.current)
    ensures r.Some? ==> ValidIndex(r.value.current)
    decreases |events|
  {
    if |events| == 0 then Some(s)
    else if Enabled(s, events[0]) then Run(Apply(s, events[0]), events[1..])
    else None
  }

  lemma {:induction false} RunKeepsInv(s: Session, events: seq<Event>)
    requires Inv(s)
    ensures Run(s, events).Some? ==> Inv(Run(s, events).value)
    decreases |events|
  {
    if |events| > 0 && Enabled(s, events[0]) {
      StepKeepsInv(s, events[0]);
      RunKeepsInv(Apply(s, events[0]), events[1..]);
    }
  }

  /** An enabled first event is applied and the rest run from there. */
  lemma RunCons(s: Session, e: Event, rest: seq<Event>)
    requires ValidIndex(s.current) && Enabled(s, e)
    ensures Run(s, [e] + rest) == Run(Apply(s, e), rest)
  {
    assert ([e] + rest)[1..] == rest;
  }

  /** Running two event sequences one after the other is running their concatenation. */
  lemma {:induction false} RunConcat(s: Session, a: seq<Event>, b: seq<Event>)
    requires ValidIndex(s.current) && Run(s, a).Some?
    ensures Run(s, a + b) == Run(Run(s, a).value, b)
    decreases |a|
  {
    if |a| > 0 {
      assert (a + b)[1..] == a[1..] + b;
      RunConcat(Apply(s, a[0]), a[1..], b);
    } else {
      assert a + b == b;
    }
  }

  ghost predicate Reachable(t: Session) {
    exists events :: Run(Initial, events) == Some(t)
  }

  lemma ReachableInv(t: Session)
    requires Reachable(t)
    ensures Inv(t)
  {
    var events :| Run(Initial, events) == Some(t);
    InitialInv();
    RunKeepsInv(Initial, events);
  }

  /** Checkout is offered only for a cart with something in it. */
  lemma CheckoutNeedsItems(s: Session)
    requires Inv(s) && Enabled(s, ProceedToCheckout)
    ensures |s.cart| > 0 && Cart.Sum(s.cart) > 0
  {
    Cart.SumPositive(s.cart);
  }

  /**
   * The "Check" button is enabled only for a six-character pincode, so it can
   * never produce the format error; only a submit can.
   */
  lemma CheckButtonSkipsFormatError(s: Session, fault: bool)
    requires Enabled(s, CheckPincode(fault))
    ensures Delivery.CheckPincode(s.form, fault).form.error != Some(Delivery.FormatError)
  {
  }

  /**
   * "Continue to Payment" is enabled only once a lookup has filled in city and
   * state: they then form one of the table's regions.
   */
  lemma SubmitNeedsLookedUpRegion(s: Session, fault: bool)
    requires Inv(s) && Enabled(s, SubmitAddress(fault))
    ensures Delivery.Region(s.form.address.city, s.form.address.state) in Delivery.PincodeTable.Values
  {
  }

  /**
   * Payment is offered only for a non-empty order with a positive total, sent
   * to a pincode the table serves, with the table's city and state.
   */
  lemma PaymentNeedsOrder(s: Session)
    requires Inv(s) && Enabled(s, SubmitPayment)
    ensures |s.cart| > 0 && Cart.Sum(s.cart) > 0
    ensures Delivery.Resolved(s.form.address)
  {
    Cart.SumPositive(s.cart);
  }

  /**
   * Paying passes through the confirmation, which shows the order and address
   * as they were, and then empties the cart, blanks the address and closes
   * the payment panel.
   */
  lemma PaymentCompletes(s: Session)
    requires Inv(s) && Enabled(s, SubmitPayment)
    ensures var c := Apply(s, SubmitPayment);
      && c.paymentSuccess && c.cart == s.cart && c.form == s.form
      && (forall e :: Enabled(c, e) <==> e == ConfirmationElapsed)
      && var d := Apply(c, ConfirmationElapsed);
      && Inv(d)
      && d.cart == [] && d.form.address == Delivery.Blank
      && !d.showPayment && !d.paymentSuccess && !d.showAddressForm
  {
    StepKeepsInv(s, SubmitPayment);
    StepKeepsInv(Apply(s, SubmitPayment), ConfirmationElapsed);
  }
}
